=== FILE: README.md ===
# MiniDungeons navigation controllers in Dafny

This project models the two hero controllers of a MiniDungeons-style grid
dungeon. Each controller answers one game tick with an integer action:
UP=0, RIGHT=1, DOWN=2, LEFT=3, or IDLE=-1.

- **Best-first search controller** (`best_first_search.dfy`, module `BestFirst`).
  At construction it plans a route with greedy best-first search. The search
  starts from the map's first exit (`exit0`). It polls the frontier by
  Manhattan distance to the second exit (`exit1`). It stops at the first
  polled cell that is an exit, and rebuilds the route by following parent
  links back to `exit0`. Each tick pops one waypoint and turns it into a
  direction.
- **Q-learning controller** (`q_learning.dfy`, module `QLearning`). It keeps
  a dense table of action values indexed by x, y and action (5 actions). It
  chooses actions epsilon-greedily during training and greedily afterwards.
  It shapes rewards as 100 for an exit, 10 for an unexplored cell and -1
  otherwise, and applies the one-step Bellman update with learning rate 0.1
  and discount 0.9.
- **Shared definitions** (`grid.dfy`, module `Grid`): cells, the Manhattan
  metric, 4-adjacency and the action encoding.

The game map is abstract. For the planner it is a set of valid cells, a set
of exit cells and the two reference exits. For training it is a `World`:
valid cells, exits and unexplored cells at that moment. The hero's position
is passed as a parameter.

### The planner's main results

- Every non-empty route `FindPath` returns from `exit0`:
  - starts at `exit0`;
  - ends on an exit;
  - is a walk over valid, 4-adjacent cells;
  - has no exit before its last cell, because the search stops at the first
    exit it polls.
- When `exit0` is itself an exit, the constructor's route is `[exit0]`. The
  hero then gets at most one directional action, and IDLE after that.
- An empty route from `exit0` means no exit is reachable from it, and the
  converse also holds.
- The search always terminates, although popped duplicates are expanded
  again. The proof uses a measure: the number of unvisited cells, then the
  number of queued entries that are already visited.
- Reconstruction always reaches `exit0` when the search starts there. A
  ghost visiting-order rank proves the parent chain is finite and acyclic.
- If the hero stands on `exit0`, replaying such a route on an unchanged map
  leaves the hero on an exit.

### The learner's main results

- The runtime `getNextAction` returns an index in 0..4. Index 4 is not part of
  the UP/RIGHT/DOWN/LEFT/IDLE encoding the game loop dispatches on, and the
  controller returns it whenever the hero's row is largest at index 4.

- The greedy action is the unique first maximum of its row.
- The maximum value equals the value of the greedy action.
- A training step changes at most one table entry. It moves that entry
  toward the Bellman target, never past it.
- An episode never counts more than 300 steps.
- An episode in which every attempted move is invalid changes nothing. The
  step counter counts only valid moves.

## Model

| member | source | states |
|---|---|---|
| Grid.Manhattan | BestFirstSearchController.java:102-104 | the distance is 0 exactly for equal cells and dominates each coordinate's absolute difference |
| Grid.ManhattanSymmetric | BestFirstSearchController.java:102-104 | the distance does not depend on argument order |
| Grid.AdjacentIsAround | BestFirstSearchController.java:81-100 | the four probed offsets are exactly the cells at distance 1 |
| Grid.Displace | BestFirstSearchController.java:37-40 | each direction action moves to an adjacent cell: LEFT to x-1, RIGHT to x+1, UP to y-1, DOWN to y+1; any other action stays put |
| BestFirst.Neighbors | BestFirstSearchController.java:81-100 | at most four cells; a cell is listed iff it is 4-adjacent and a valid move; listed in probing order +x, -x, +y, -y |
| BestFirst.AppendProbe | BestFirstSearchController.java:86-97 | appending the k-th probe, if valid, after earlier probes keeps the probing order |
| BestFirst.PollIndex | BestFirstSearchController.java:48-53 | the polled entry is in the frontier and no entry has a smaller distance to the heuristic target |
| BestFirst.MinimumExists | BestFirstSearchController.java:48-53 | every non-empty frontier has an entry of least distance |
| BestFirst.Enqueue | BestFirstSearchController.java:59-64 | unvisited neighbours, and only those, are appended after the old frontier, which is kept as it was; each of them gets the expanded cell as parent; all other parents are unchanged |
| BestFirst.EnqueueAppendsOnce | BestFirstSearchController.java:59-64 | when the neighbour list has no repeats, the appended entries are pairwise distinct, so each unvisited neighbour is appended exactly once |
| BestFirst.ExpansionAppendsOnce | BestFirstSearchController.java:59-63 | expanding a cell appends each of its unvisited valid neighbours to the frontier exactly once |
| BestFirst.Backtrack | BestFirstSearchController.java:69-79 | a completed reconstruction is a parent chain from the origin to the polled cell; a failure names a cell with no parent other than the origin |
| BestFirst.BacktrackFindsChain | BestFirstSearchController.java:69-79 | conversely, any parent chain within the fuel is exactly what reconstruction returns |
| BestFirst.BacktrackFromVisited | BestFirstSearchController.java:58-63 | parents visited before their children guarantee that reconstruction from a visited cell ends, reaching the start when that is the origin |
| BestFirst.WalkStaysInside | BestFirstSearchController.java:59-64 | a walk from a set closed under neighbours stays inside it |
| BestFirst.NoExitOutsideClosedSet | BestFirstSearchController.java:52-66 | a neighbour-closed set with no exit that contains the start rules out any route to an exit |
| BestFirst.CountVisitedAppend | BestFirstSearchController.java:59-64 | the count of already-visited frontier entries adds up over concatenation |
| BestFirst.CountVisitedFresh | BestFirstSearchController.java:59-64 | entries that are not visited add nothing to that count |
| BestFirst.CountVisitedRemove | BestFirstSearchController.java:53 | removing a visited entry lowers the count by one |
| BestFirst.VisitShrinksUnvisited | BestFirstSearchController.java:58 | visiting a new cell of the map lowers the number of unvisited cells |
| BestFirst.CountDropsOnRevisit | BestFirstSearchController.java:53-64 | re-expanding an already visited cell lowers the count of visited entries in the frontier |
| BestFirst.ExpandKeepsClosure | BestFirstSearchController.java:58-64 | after an expansion, every valid neighbour of a visited cell is visited or queued |
| BestFirst.ExpandKeepsFrontier | BestFirstSearchController.java:59-64 | after an expansion, every frontier entry is the start or a valid cell with a parent |
| BestFirst.ExpandKeepsParentLinks | BestFirstSearchController.java:58-64 | after an expansion, every parent is visited and adjacent to its child, and the start has no parent |
| BestFirst.ReexpandKeepsRanks | BestFirstSearchController.java:58-64 | re-expanding a visited cell keeps parents earlier in visiting order than their children |
| BestFirst.FirstExpandKeepsRanks | BestFirstSearchController.java:58-64 | a first visit keeps parents earlier in visiting order than their children |
| BestFirst.FirstExpandRanksVisited | BestFirstSearchController.java:58 | a first visit numbers the new cell after all earlier ones |
| BestFirst.FirstExpandRoots | BestFirstSearchController.java:58-63 | after a first visit, every ranked cell is the start or has a parent |
| BestFirst.FirstExpandParentsRanked | BestFirstSearchController.java:58-63 | after a first visit, every parent is ranked |
| BestFirst.FirstExpandParentsPrecede | BestFirstSearchController.java:58-63 | after a first visit, every parent is ranked below its child |
| BestFirst.ExpandKeepsInv | BestFirstSearchController.java:53-64 | one expansion of a polled non-exit cell preserves the whole search invariant |
| BestFirst.PolledExitAnswers | BestFirstSearchController.java:54-55 | reconstruction with fuel one above the visited count never runs dry when an exit is polled, and its outcome satisfies the search's contract, including that every earlier route cell was visited and so is not an exit |
| BestFirst.ExhaustedAnswers | BestFirstSearchController.java:66 | an exhausted frontier means no exit is reachable from the start |
| BestFirst.FindPath | BestFirstSearchController.java:46-67 | a missing parent can occur only at the start, when the start is not exit0; a non-empty route starts at exit0, ends on an exit and is a walk; no cell of a route before its last is an exit; an empty route means no exit is reachable, and from exit0 also the converse; an exit start yields [exit0] or a missing parent |
| BestFirst.PlanRoute | BestFirstSearchController.java:26-29 | planning from exit0 gives an empty route exactly when no exit is reachable, and otherwise a walk from exit0 to an exit with no exit before its last cell; when exit0 is itself an exit the route is [exit0] |
| BestFirst.NextAction | BestFirstSearchController.java:32-44 | the head waypoint is always consumed; an empty route or an invalid waypoint gives IDLE; for a valid waypoint the tests run in the order left, right, up, down, each comparing one coordinate: x = hero.x-1 gives LEFT, else x = hero.x+1 gives RIGHT, else y = hero.y-1 gives UP, else y = hero.y+1 gives DOWN, and a waypoint passing none gives IDLE |
| BestFirst.ActionReachesWaypoint | BestFirstSearchController.java:37-40 | a valid waypoint adjacent to the hero yields the direction that moves onto it |
| BestFirst.WaypointOnHeroIsIdle | BestFirstSearchController.java:33-43 | a waypoint on the hero's own cell is consumed with IDLE |
| BestFirst.LeftIgnoresRow | BestFirstSearchController.java:37 | the LEFT test compares only the column: for every hero and every valid waypoint one column left in another row, the action is LEFT, the waypoint is not adjacent, and the move does not land on it |
| BestFirst.Replay | BestFirstSearchController.java:32-44 | one action per tick, one waypoint consumed per tick, IDLE once the route is used up or when the waypoint is invalid |
| BestFirst.FollowWalk | BestFirstSearchController.java:32-44 | replaying a walk that starts next to the hero ends on the walk's last cell |
| BestFirst.RouteLeadsToExit | BestFirstSearchController.java:26-44 | a hero standing on the route's first cell (exit0 for a found route) who replays it on an unchanged map ends on an exit |
| QLearning.InitializeQTable | QLearningController.java:27-36 | the table has width by height by 5 entries, all zero |
| QLearning.ScanBest | QLearningController.java:91-96 | the scan returns an index holding the row's maximum, with every lower index strictly smaller |
| QLearning.BestIndex | QLearningController.java:87-98 | the result is the first index of the row's maximum |
| QLearning.GreedyIsUnique | QLearningController.java:87-98 | an index is greedy exactly when it is the scan's result |
| QLearning.ScanMax | QLearningController.java:111-116 | the scan returns a value of the row that no entry exceeds |
| QLearning.MaxValue | QLearningController.java:110-118 | the result occurs in the row and bounds every entry |
| QLearning.MaxIsGreedyValue | QLearningController.java:87-118 | the maximum value is the value of the greedy action |
| QLearning.GetBestAction | QLearningController.java:87-98 | the action is below 5 and greedy for the cell's row |
| QLearning.GetMaxQValue | QLearningController.java:110-118 | the value bounds all five entries of the cell and equals the greedy action's entry |
| QLearning.SelectActionWithExploration | QLearningController.java:74-80 | always below 5; a roll under 0.9 returns the random draw; otherwise the greedy action |
| QLearning.NextAction | QLearningController.java:82-85 | always in 0..4, greedy at the hero's cell; it is the choice training makes when it does not explore |
| QLearning.NextActionCanBeFour | QLearningController.java:82-98 | when the hero's row is largest at index 4, the runtime query returns 4, which is neither a direction nor IDLE |
| QLearning.CalculateReward | QLearningController.java:100-108 | 100 exactly on an exit; 10 exactly on an unexplored non-exit; -1 otherwise; positive exactly on an exit or unexplored cell |
| QLearning.TrainStep | QLearningController.java:48-69 | an invalid destination changes nothing; otherwise the learner moves there and counts a step; at most the (position, action) entry changes, and it moves toward the reward plus the discounted best next value without overshooting, staying put only when already equal |
| QLearning.Episode | QLearningController.java:47-70 | the table keeps its shape; each attempt adds at most one step; a counter starting within the cap of 300 stays within it |
| QLearning.StalledEpisode | QLearningController.java:53-55 | if every attempted move is invalid, the episode leaves the learner unchanged |

## Left out

- The game map and characters are outside this model, as are the `PlayMap`
  and `GameCharacter` internals, `startGame` and `updateGame`. The map is an
  abstract set of valid cells and exits, passed in as a parameter.
- Grid.Displace: the hero's movement per action comes from the comparisons
  in `getNextAction` (LEFT is x-1, UP is y-1). The character's own
  `getNextPosition` is not part of this model. IDLE and any other
  non-direction value are modelled as staying put. The learning module does
  not use `Displace`, so action 4 of its range has no modelled effect.
- Grid.Cell: cells compare structurally. In the Java code, `parentMap` is a
  `HashMap<Point2D, Point2D>`, whose lookups use `Point2D.equals` and
  `hashCode`, and `visited` holds `toString()` keys. Neither `Point2D`
  method is part of this model, so both are assumed structural. Under
  identity equality, each enqueued copy would keep its own parent, instead of
  the one written last.
- Random numbers: `nextFloat` and `nextInt` become the `roll` and `draw`
  parameters of `SelectActionWithExploration`.
- Floating point: table values and constants are exact reals. 32-bit float
  rounding is not modelled.
- Integer width: coordinates are unbounded integers, so the `Math.abs`
  overflow at `Integer.MIN_VALUE` is not modelled. Map coordinates are small
  in practice.
- `java.util.PriorityQueue`: its tie order is left open. `PollIndex` may
  return any entry of least distance, so every proved property holds for
  every tie order.
- BestFirst.Backtrack: it takes a fuel bound. The loop in the source has
  none. Inside `FindPath`, fuel one above the number of visited cells is
  proved always sufficient, so the bound never changes the outcome there.
- BestFirst.FindPath: a missing parent makes the source throw a
  `NullPointerException`. This model returns the outcome `NullParent`
  instead. It does not return the empty route that a graceful failure would
  give. The only caller starts at `exit0`, and `PlanRoute` proves that this
  outcome then never occurs.
- QLearning.Episode: the attempt sequence is finite and given in advance.
  The source loops until an exit or the step cap, and an invalid move does
  not count as a step. With all moves invalid, the source can therefore
  spin forever; `StalledEpisode` shows such attempts change nothing. The
  outer loop of 1000 training episodes and the map reset between episodes
  are not modelled.
- QLearning.TrainStep: the destination cell is a parameter, not computed
  from the hero's position and the action, so action 4 of the range has no
  modelled effect. The update is stated as moving
  toward the target without overshooting, rather than as the exact value
  after rounding.
- BestFirst.RouteLeadsToExit: it assumes the hero stands on the route's
  first cell, `exit0`. The source plans from `getExit(0)` but reads the
  hero's position separately, and nothing in the code ties the two
  together. A hero standing elsewhere gets IDLE for every waypoint that
  passes none of the single-coordinate tests.
- QLearning.GetBestAction, QLearning.GetMaxQValue, QLearning.SelectActionWithExploration,
  QLearning.NextAction and QLearning.TrainStep require their cells to be
  `InGrid`. In the Java code, a cell outside the table makes `qTable[x][y]`
  (lines 88 and 111-113) throw `ArrayIndexOutOfBoundsException`. That crash
  is not modelled.
- QLearning.CalculateReward: it returns 10 or -1 for any non-exit cell,
  including one outside the grid. The Java code throws
  `ArrayIndexOutOfBoundsException` there, when it reads `getUnexplored()` at
  line 104. Callers in this model only pass `InGrid` destinations.
- Grid.Manhattan: the casts `(int) x` of float coordinates are not
  modelled. Cells have integer coordinates from the start.

=== FILE: best_first_search.dfy ===
/** The best-first path planner: a greedy search over the 4-connected grid,
    ordered by Manhattan distance to the map's second exit, that reconstructs
    its route back to the map's first exit and replays it one waypoint per
    tick. */
module BestFirst {
  import opened Grid

  /** What the planner asks of the game map: the cells onto which a move is
      currently legal, the exit cells, and the two designated exits (index 0
      is the route's origin, index 1 the heuristic's target). */
  datatype PlayMap = PlayMap(valid: set<Cell>, exits: set<Cell>, exit0: Cell, exit1: Cell)

  predicate IsValidMove(m: PlayMap, c: Cell) {
    c in m.valid
  }

  predicate IsExit(m: PlayMap, c: Cell) {
    c in m.exits
  }

  /** Result of following parent links: the route, the cell whose parent
      was missing (`reconstructPath` dereferences null there), or fuel exhausted
      (a parent cycle, on which `reconstructPath` would loop). */
  datatype Trace = Traced(path: seq<Cell>) | Broken(at: Cell) | OutOfFuel

  /** Result of one search: a route (empty when no exit was found), or the
      cell at which reconstruction met a missing parent. */
  datatype Plan = Route(path: seq<Cell>) | NullParent(at: Cell)

  // ---------------------------------------------------------------------
  // Neighbours and walks

  /** Position of `n` in the probing order +x, -x, +y, -y; 4 if `n` is not
      adjacent to `c`. */
  function ProbeIndex(c: Cell, n: Cell): nat {
    if n == Cell(c.x + 1, c.y) then 0
    else if n == Cell(c.x - 1, c.y) then 1
    else if n == Cell(c.x, c.y + 1) then 2
    else if n == Cell(c.x, c.y - 1) then 3
    else 4
  }

  function KeepValid(m: PlayMap, c: Cell): seq<Cell> {
    if IsValidMove(m, c) then [c] else []
  }

  /** The cells of `s` are strictly increasing in probing order around `c`. */
  predicate ProbeOrdered(c: Cell, s: seq<Cell>) {
    forall i, j :: 0 <= i < j < |s| ==> ProbeIndex(c, s[i]) < ProbeIndex(c, s[j])
  }

  /** Appending the `k`-th probed cell, when valid, to cells probed earlier
      keeps the probing order. */
  lemma AppendProbe(m: PlayMap, c: Cell, s: seq<Cell>, k: nat)
    requires k < 4
    requires ProbeOrdered(c, s)
    requires forall n :: n in s ==> ProbeIndex(c, n) < k
    ensures ProbeOrdered(c, s + KeepValid(m, Around(c)[k]))
    ensures forall n :: n in s + KeepValid(m, Around(c)[k]) ==> ProbeIndex(c, n) <= k
  {
    assert ProbeIndex(c, Around(c)[k]) == k;
  }

  /** The four probes around `c`, each kept when it is a valid move. */
  function Probe(m: PlayMap, c: Cell): seq<Cell> {
    var a := Around(c);
    KeepValid(m, a[0]) + KeepValid(m, a[1]) + KeepValid(m, a[2]) + KeepValid(m, a[3])
  }

  lemma ProbeMembers(m: PlayMap, c: Cell)
    ensures forall n :: n in Probe(m, c) <==> Adjacent(c, n) && IsValidMove(m, n)
  {
    forall n ensures n in Probe(m, c) <==> Adjacent(c, n) && IsValidMove(m, n) {
      AdjacentIsAround(c, n);
    }
  }

  lemma ProbeInOrder(m: PlayMap, c: Cell)
    ensures ProbeOrdered(c, Probe(m, c))
  {
    var a := Around(c);
    var s0 := KeepValid(m, a[0]);
    AppendProbe(m, c, [], 0);
    assert [] + s0 == s0;
    var s1 := s0 + KeepValid(m, a[1]);
    AppendProbe(m, c, s0, 1);
    var s2 := s1 + KeepValid(m, a[2]);
    AppendProbe(m, c, s1, 2);
    AppendProbe(m, c, s2, 3);
  }

  /** The valid 4-neighbours of `c`, probed in the order +x, -x, +y, -y. */
  function Neighbors(m: PlayMap, c: Cell): (ns: seq<Cell>)
    ensures |ns| <= 4
    ensures forall n :: n in ns <==> Adjacent(c, n) && IsValidMove(m, n)
    ensures ProbeOrdered(c, ns)
  {
    ProbeMembers(m, c);
    ProbeInOrder(m, c);
    Probe(m, c)
  }

  /** A walk on the map: consecutive cells are 4-adjacent and every cell
      after the first is a valid move. */
  ghost predicate IsWalk(m: PlayMap, w: seq<Cell>) {
    && |w| >= 1
    && forall i :: 1 <= i < |w| ==> Adjacent(w[i - 1], w[i]) && IsValidMove(m, w[i])
  }

  /** Some exit can be reached from `s` by valid 4-connected moves. */
  ghost predicate ExitReachable(m: PlayMap, s: Cell) {
    exists w :: IsWalk(m, w) && w[0] == s && IsExit(m, w[|w| - 1])
  }

  /** A walk that starts inside a set closed under taking neighbours never
      leaves it. */
  lemma {:induction false} WalkStaysInside(m: PlayMap, closed: set<Cell>, w: seq<Cell>, k: nat)
    requires IsWalk(m, w) && w[0] in closed
    requires forall v, n :: v in closed && n in Neighbors(m, v) ==> n in closed
    requires k < |w|
    ensures w[k] in closed
  {
    if k > 0 {
      WalkStaysInside(m, closed, w, k - 1);
      assert Adjacent(w[k - 1], w[k]) && IsValidMove(m, w[k]);
      assert w[k] in Neighbors(m, w[k - 1]);
    }
  }

  lemma NoExitOutsideClosedSet(m: PlayMap, closed: set<Cell>, s: Cell)
    requires s in closed
    requires forall v, n :: v in closed && n in Neighbors(m, v) ==> n in closed
    requires forall v :: v in closed ==> !IsExit(m, v)
    ensures !ExitReachable(m, s)
  {
    forall w | IsWalk(m, w) && w[0] == s
      ensures !IsExit(m, w[|w| - 1])
    {
      WalkStaysInside(m, closed, w, |w| - 1);
    }
  }

  // ---------------------------------------------------------------------
  // The frontier

  /** Entry `i` of the frontier has the least heuristic value. */
  predicate IsMinimalAt(q: seq<Cell>, i: int, target: Cell) {
    && 0 <= i < |q|
    && forall j :: 0 <= j < |q| ==> Manhattan(q[i], target) <= Manhattan(q[j], target)
  }

  lemma {:induction false} MinimumExists(q: seq<Cell>, target: Cell)
    requires q != []
    ensures exists i :: IsMinimalAt(q, i, target)
  {
    if |q| == 1 {
      assert IsMinimalAt(q, 0, target);
    } else {
      MinimumExists(q[1..], target);
      var j :| IsMinimalAt(q[1..], j, target);
      if Manhattan(q[0], target) <= Manhattan(q[1 + j], target) {
        assert IsMinimalAt(q, 0, target);
      } else {
        assert IsMinimalAt(q, 1 + j, target);
      }
    }
  }

  /** The priority queue's poll: the position of some entry of least
      Manhattan distance to `target`. Which one among equal priorities is
      left open, as the queue leaves it unspecified. */
  method PollIndex(q: seq<Cell>, target: Cell) returns (i: nat)
    requires q != []
    ensures i < |q|
    ensures forall j :: 0 <= j < |q| ==> Manhattan(q[i], target) <= Manhattan(q[j], target)
  {
    MinimumExists(q, target);
    i :| IsMinimalAt(q, i, target);
  }

  /** Number of frontier entries that are already visited. */
  function CountVisited(q: seq<Cell>, visited: set<Cell>): nat {
    if q == [] then 0
    else (if q[0] in visited then 1 else 0) + CountVisited(q[1..], visited)
  }

  lemma {:induction false} CountVisitedAppend(a: seq<Cell>, b: seq<Cell>, visited: set<Cell>)
    ensures CountVisited(a + b, visited) == CountVisited(a, visited) + CountVisited(b, visited)
  {
    if a == [] {
      assert a + b == b;
    } else {
      assert (a + b)[0] == a[0];
      assert (a + b)[1..] == a[1..] + b;
      CountVisitedAppend(a[1..], b, visited);
    }
  }

  lemma {:induction false} CountVisitedFresh(q: seq<Cell>, visited: set<Cell>)
    requires forall c :: c in q ==> c !in visited
    ensures CountVisited(q, visited) == 0
  {
    if q != [] {
      CountVisitedFresh(q[1..], visited);
    }
  }

  /** Removing one visited entry lowers the count by one. */
  lemma CountVisitedRemove(q: seq<Cell>, i: nat, visited: set<Cell>)
    requires i < |q| && q[i] in visited
    ensures CountVisited(q[..i] + q[i + 1..], visited) + 1 == CountVisited(q, visited)
  {
    assert q == q[..i] + ([q[i]] + q[i + 1..]);
    CountVisitedAppend(q[..i], [q[i]] + q[i + 1..], visited);
    CountVisitedAppend([q[i]], q[i + 1..], visited);
    CountVisitedAppend(q[..i], q[i + 1..], visited);
  }

  /** Visiting a new cell of a finite universe leaves fewer unvisited. */
  lemma VisitShrinksUnvisited(universe: set<Cell>, visited: set<Cell>, c: Cell)
    requires c in universe && c !in visited
    ensures |universe - (visited + {c})| < |universe - visited|
  {
    assert universe - (visited + {c}) == (universe - visited) - {c};
  }

  /** Polling an entry that is already visited and appending only
      unvisited cells lowers the number of visited entries. */
  lemma CountDropsOnRevisit(queue: seq<Cell>, i: nat, visited: set<Cell>, rest: seq<Cell>, queue': seq<Cell>)
    requires i < |queue| && queue[i] in visited
    requires rest == queue[..i] + queue[i + 1..]
    requires |queue'| >= |rest| && queue'[..|rest|] == rest
    requires forall k :: |rest| <= k < |queue'| ==> queue'[k] !in visited
    ensures CountVisited(queue', visited) < CountVisited(queue, visited)
  {
    CountVisitedRemove(queue, i, visited);
    assert queue'[..|rest|] + queue'[|rest|..] == queue';
    CountVisitedAppend(rest, queue'[|rest|..], visited);
    CountVisitedFresh(queue'[|rest|..], visited);
  }

  /** The neighbour loop of one expansion: every neighbour not yet visited is
      appended to the frontier and gets `from` as its parent. */
  function Enqueue(nbrs: seq<Cell>, from: Cell, visited: set<Cell>,
                   frontier: seq<Cell>, parent: map<Cell, Cell>): (r: (seq<Cell>, map<Cell, Cell>))
    ensures |frontier| <= |r.0| <= |frontier| + |nbrs|
    ensures r.0[..|frontier|] == frontier
    ensures forall k :: |frontier| <= k < |r.0| ==> r.0[k] in nbrs && r.0[k] !in visited
    ensures forall n :: n in nbrs && n !in visited ==> n in r.0[|frontier|..]
    ensures forall c :: c in r.0 <==> c in frontier || (c in nbrs && c !in visited)
    ensures r.1.Keys == parent.Keys + (set n | n in nbrs && n !in visited)
    ensures forall n :: n in nbrs && n !in visited ==> r.1[n] == from
    ensures forall n {:trigger r.1[n]} :: n in parent && (n !in nbrs || n in visited) ==> r.1[n] == parent[n]
    decreases |nbrs|
  {
    if nbrs == [] then (frontier, parent)
    else
      var n := nbrs[0];
      var rest := nbrs[1..];
      assert forall c :: c in nbrs <==> c == n || c in rest;
      if n in visited then
        Enqueue(rest, from, visited, frontier, parent)
      else
        var frontier' := frontier + [n];
        var r := Enqueue(rest, from, visited, frontier', parent[n := from]);
        assert r.0[..|frontier'|] == frontier';
        assert r.0[..|frontier|] == frontier'[..|frontier|];
        assert r.0[|frontier|] == r.0[..|frontier'|][|frontier|] == n;
        r
  }

  /** The entries of `s` from index `k` on are pairwise distinct. */
  predicate DistinctFrom(s: seq<Cell>, k: nat) {
    forall i, j :: k <= i < j < |s| ==> s[i] != s[j]
  }

  /** Distinct neighbours are appended at most once each: the entries the
      neighbour loop adds to the frontier are pairwise distinct. */
  lemma {:induction false} EnqueueAppendsOnce(nbrs: seq<Cell>, from: Cell, visited: set<Cell>,
                                              frontier: seq<Cell>, parent: map<Cell, Cell>)
    requires DistinctFrom(nbrs, 0)
    ensures DistinctFrom(Enqueue(nbrs, from, visited, frontier, parent).0, |frontier|)
    decreases |nbrs|
  {
    if nbrs != [] {
      var n := nbrs[0];
      var rest := nbrs[1..];
      assert DistinctFrom(rest, 0);
      if n in visited {
        EnqueueAppendsOnce(rest, from, visited, frontier, parent);
        assert Enqueue(nbrs, from, visited, frontier, parent) == Enqueue(rest, from, visited, frontier, parent);
      } else {
        var frontier' := frontier + [n];
        EnqueueAppendsOnce(rest, from, visited, frontier', parent[n := from]);
        var r := Enqueue(rest, from, visited, frontier', parent[n := from]);
        assert Enqueue(nbrs, from, visited, frontier, parent) == r;
        assert r.0[..|frontier'|] == frontier';
        assert r.0[|frontier|] == r.0[..|frontier'|][|frontier|] == n;
        forall i, j | |frontier| <= i < j < |r.0| ensures r.0[i] != r.0[j] {
          if i == |frontier| {
            assert r.0[j] in rest;
          }
        }
      }
    }
  }

  /** In an expansion, the frontier gains each unvisited neighbour of the
      expanded cell exactly once, as a single `add` per neighbour does. */
  lemma ExpansionAppendsOnce(m: PlayMap, c: Cell, visited: set<Cell>,
                             frontier: seq<Cell>, parent: map<Cell, Cell>)
    ensures DistinctFrom(Enqueue(Neighbors(m, c), c, visited, frontier, parent).0, |frontier|)
  {
    var ns := Neighbors(m, c);
    forall i, j | 0 <= i < j < |ns| ensures ns[i] != ns[j] {
      assert ProbeIndex(c, ns[i]) < ProbeIndex(c, ns[j]);
    }
    EnqueueAppendsOnce(ns, c, visited, frontier, parent);
  }

  // ---------------------------------------------------------------------
  // Route reconstruction

  /** `p` runs from `origin` to `cur`, each cell after the first being the
      parent-map child of its predecessor, and `origin` occurs only first. */
  ghost predicate IsParentChain(parent: map<Cell, Cell>, origin: Cell, cur: Cell, p: seq<Cell>) {
    && |p| >= 1
    && p[0] == origin
    && p[|p| - 1] == cur
    && (forall i :: 1 <= i < |p| ==> p[i] in parent && parent[p[i]] == p[i - 1])
    && (forall i :: 1 <= i < |p| ==> p[i] != origin)
  }

  /** Follows parent links from `cur` until `origin`, returning the cells
      in origin-to-`cur` order. `fuel` bounds the number of links
      followed. */
  function Backtrack(cur: Cell, origin: Cell, parent: map<Cell, Cell>, fuel: nat): (t: Trace)
    ensures t.Traced? ==> IsParentChain(parent, origin, cur, t.path) && |t.path| <= fuel + 1
    ensures t.Broken? ==> t.at != origin && t.at !in parent && (t.at == cur || t.at in parent.Values)
    ensures t.OutOfFuel? ==> cur != origin
    decreases fuel
  {
    if cur == origin then Traced([origin])
    else if fuel == 0 then OutOfFuel
    else if cur !in parent then Broken(cur)
    else
      match Backtrack(parent[cur], origin, parent, fuel - 1)
      case Traced(p) => Traced(p + [cur])
      case Broken(c) => Broken(c)
      case OutOfFuel => OutOfFuel
  }

  /** Conversely, every parent chain short enough for the fuel is exactly
      what `Backtrack` returns. */
  lemma {:induction false} BacktrackFindsChain(parent: map<Cell, Cell>, origin: Cell, cur: Cell, p: seq<Cell>, fuel: nat)
    requires IsParentChain(parent, origin, cur, p)
    requires |p| <= fuel + 1
    ensures Backtrack(cur, origin, parent, fuel) == Traced(p)
    decreases |p|
  {
    if |p| == 1 {
      assert cur == origin;
    } else {
      var q := p[..|p| - 1];
      assert IsParentChain(parent, origin, parent[cur], q);
      BacktrackFindsChain(parent, origin, parent[cur], q, fuel - 1);
      assert q + [cur] == p;
    }
  }

  /** The search's bookkeeping: `rank` numbers visited cells in visiting
      order, every parent is visited, and a visited cell's parent was
      visited before it. */
  ghost predicate RankedParents(parent: map<Cell, Cell>, rank: map<Cell, nat>, start: Cell) {
    && (forall v {:trigger rank[v]} :: v in rank ==> v == start || v in parent)
    && (forall n {:trigger parent[n]} :: n in parent ==> parent[n] in rank)
    && (forall n {:trigger rank[parent[n]]} :: n in parent && n in rank ==> rank[parent[n]] < rank[n])
  }

  /** From a visited cell, backtracking never runs out of fuel once the fuel
      exceeds the cell's rank, and reaches `start` when that is the origin. */
  lemma {:induction false} BacktrackFromVisited(parent: map<Cell, Cell>, rank: map<Cell, nat>, start: Cell,
                                                origin: Cell, v: Cell, fuel: nat)
    requires RankedParents(parent, rank, start)
    requires start !in parent
    requires v in rank && fuel > rank[v]
    ensures !Backtrack(v, origin, parent, fuel).OutOfFuel?
    ensures origin == start ==> Backtrack(v, origin, parent, fuel).Traced?
    decreases rank[v]
  {
    if v != origin && v in parent {
      BacktrackFromVisited(parent, rank, start, origin, parent[v], fuel - 1);
    }
  }

  // ---------------------------------------------------------------------
  // The search

  /** Every queued cell is valid or the start, and has a parent unless it
      is the start. */
  ghost predicate FrontierOk(m: PlayMap, start: Cell, queue: seq<Cell>, parent: map<Cell, Cell>) {
    forall c :: c in queue ==> (c in m.valid || c == start) && (c == start || c in parent)
  }

  /** Every visited cell is valid or the start, and none is an exit. */
  ghost predicate VisitedOk(m: PlayMap, start: Cell, visited: set<Cell>) {
    forall v :: v in visited ==> (v in m.valid || v == start) && !IsExit(m, v)
  }

  /** Before the first round only the start is queued; after it, the start
      is visited. */
  ghost predicate Started(start: Cell, visited: set<Cell>, queue: seq<Cell>, parent: map<Cell, Cell>) {
    && (visited == {} ==> queue == [start] && parent == map[])
    && (visited != {} ==> start in visited)
  }

  /** Every parent is visited and adjacent to its child, which is a valid
      cell; the start has no parent. */
  ghost predicate ParentLinks(m: PlayMap, start: Cell, visited: set<Cell>, parent: map<Cell, Cell>) {
    && start !in parent
    && forall n {:trigger parent[n]} :: n in parent ==> parent[n] in visited && Adjacent(parent[n], n) && IsValidMove(m, n)
  }

  /** `rank` numbers exactly the visited cells, below their count. */
  ghost predicate Ranks(visited: set<Cell>, rank: map<Cell, nat>) {
    && rank.Keys == visited
    && forall v {:trigger rank[v]} :: v in visited ==> rank[v] < |visited|
  }

  /** Every valid neighbour of a visited cell is visited or queued. */
  ghost predicate Closed(m: PlayMap, visited: set<Cell>, queue: seq<Cell>) {
    forall v, n :: v in visited && n in Neighbors(m, v) ==> n in visited || n in queue
  }

  /** The loop invariant of the search. */
  ghost predicate SearchInv(m: PlayMap, start: Cell, visited: set<Cell>, queue: seq<Cell>,
                            parent: map<Cell, Cell>, rank: map<Cell, nat>) {
    && FrontierOk(m, start, queue, parent)
    && VisitedOk(m, start, visited)
    && Started(start, visited, queue, parent)
    && ParentLinks(m, start, visited, parent)
    && Ranks(visited, rank)
    && RankedParents(parent, rank, start)
    && Closed(m, visited, queue)
  }

  /** Expanding a polled non-exit cell keeps the neighbour closure: the
      expanded cell's neighbours are visited or queued, and every other
      queued cell stays queued. */
  lemma ExpandKeepsClosure(m: PlayMap, visited: set<Cell>, queue: seq<Cell>, i: nat, queue': seq<Cell>)
    requires i < |queue|
    requires Closed(m, visited, queue)
    requires forall c :: c in queue' <==> c in queue[..i] + queue[i + 1..] || (c in Neighbors(m, queue[i]) && c !in visited + {queue[i]})
    ensures Closed(m, visited + {queue[i]}, queue')
  {
    var rest := queue[..i] + queue[i + 1..];
    forall c | c in queue && c != queue[i] ensures c in rest {
      var k :| 0 <= k < |queue| && queue[k] == c;
      if k < i {
        assert rest[k] == c;
      } else {
        assert rest[k - 1] == c;
      }
    }
  }

  /** Expanding a polled non-exit cell keeps the frontier well-formed. */
  lemma ExpandKeepsFrontier(m: PlayMap, start: Cell, queue: seq<Cell>, parent: map<Cell, Cell>, i: nat,
                            added: set<Cell>, queue': seq<Cell>, parent': map<Cell, Cell>)
    requires i < |queue|
    requires FrontierOk(m, start, queue, parent)
    requires forall n :: n in added ==> n in Neighbors(m, queue[i])
    requires forall c :: c in queue' <==> c in queue[..i] + queue[i + 1..] || c in added
    requires parent'.Keys == parent.Keys + added
    ensures FrontierOk(m, start, queue', parent')
  {
    assert forall c :: c in queue[..i] + queue[i + 1..] ==> c in queue;
  }

  /** Expanding `current` keeps every parent visited, adjacent to its child
      and the child a valid cell; `start` never gets a parent. */
  lemma ExpandKeepsParentLinks(m: PlayMap, start: Cell, visited: set<Cell>, parent: map<Cell, Cell>,
                               current: Cell, added: set<Cell>, parent': map<Cell, Cell>)
    requires ParentLinks(m, start, visited, parent)
    requires start in visited || current == start
    requires forall n :: n in added ==> n in Neighbors(m, current) && n !in visited + {current}
    requires parent'.Keys == parent.Keys + added
    requires forall n :: n in added ==> parent'[n] == current
    requires forall n {:trigger parent'[n]} :: n in parent && n !in added ==> parent'[n] == parent[n]
    ensures ParentLinks(m, start, visited + {current}, parent')
  {
    forall n | n in parent'
      ensures parent'[n] in visited + {current} && Adjacent(parent'[n], n) && IsValidMove(m, n)
    {
      if n in added {
        assert n in Neighbors(m, current);
      }
    }
  }

  /** Re-expanding an already visited cell leaves the ranks as they are and
      keeps parents preceding their visited children. */
  lemma ReexpandKeepsRanks(start: Cell, visited: set<Cell>, parent: map<Cell, Cell>,
                           rank: map<Cell, nat>, current: Cell, added: set<Cell>,
                           parent': map<Cell, Cell>, rank': map<Cell, nat>)
    requires current in visited && rank' == rank
    requires Ranks(visited, rank)
    requires RankedParents(parent, rank, start)
    requires added !! visited
    requires parent'.Keys == parent.Keys + added
    requires forall n :: n in added ==> parent'[n] == current
    requires forall n {:trigger parent'[n]} :: n in parent && n !in added ==> parent'[n] == parent[n]
    ensures Ranks(visited + {current}, rank')
    ensures RankedParents(parent', rank', start)
  {
    assert visited + {current} == visited;
  }

  /** Expanding a cell for the first time ranks it after every visited cell
      and keeps parents preceding their visited children. */
  lemma FirstExpandKeepsRanks(start: Cell, visited: set<Cell>, parent: map<Cell, Cell>,
                              rank: map<Cell, nat>, current: Cell, added: set<Cell>,
                              parent': map<Cell, Cell>, rank': map<Cell, nat>)
    requires current !in visited && rank' == rank[current := |visited|]
    requires current == start || current in parent
    requires Ranks(visited, rank)
    requires RankedParents(parent, rank, start)
    requires added !! visited + {current}
    requires parent'.Keys == parent.Keys + added
    requires forall n :: n in added ==> parent'[n] == current
    requires forall n {:trigger parent'[n]} :: n in parent && n !in added ==> parent'[n] == parent[n]
    ensures Ranks(visited + {current}, rank')
    ensures RankedParents(parent', rank', start)
  {
    FirstExpandRanksVisited(visited, rank, current, rank');
    FirstExpandRoots(start, parent, rank, current, added, parent', rank');
    FirstExpandParentsRanked(parent, rank, current, added, parent', rank');
    FirstExpandParentsPrecede(visited, parent, rank, current, added, parent', rank');
  }

  lemma FirstExpandRanksVisited(visited: set<Cell>, rank: map<Cell, nat>, current: Cell, rank': map<Cell, nat>)
    requires current !in visited && rank' == rank[current := |visited|]
    requires Ranks(visited, rank)
    ensures Ranks(visited + {current}, rank')
  {
    assert |visited + {current}| == |visited| + 1;
  }

  lemma FirstExpandRoots(start: Cell, parent: map<Cell, Cell>, rank: map<Cell, nat>, current: Cell,
                         added: set<Cell>, parent': map<Cell, Cell>, rank': map<Cell, nat>)
    requires rank'.Keys == rank.Keys + {current}
    requires current == start || current in parent
    requires forall v {:trigger rank[v]} :: v in rank ==> v == start || v in parent
    requires parent'.Keys == parent.Keys + added
    ensures forall v {:trigger rank'[v]} :: v in rank' ==> v == start || v in parent'
  {
    forall v | v in rank' ensures v == start || v in parent' {
      if v != current {
        assert v in rank;
      }
    }
  }

  lemma FirstExpandParentsRanked(parent: map<Cell, Cell>, rank: map<Cell, nat>, current: Cell,
                                 added: set<Cell>, parent': map<Cell, Cell>, rank': map<Cell, nat>)
    requires rank'.Keys == rank.Keys + {current}
    requires forall n {:trigger parent[n]} :: n in parent ==> parent[n] in rank
    requires parent'.Keys == parent.Keys + added
    requires forall n :: n in added ==> parent'[n] == current
    requires forall n {:trigger parent'[n]} :: n in parent && n !in added ==> parent'[n] == parent[n]
    ensures forall n {:trigger parent'[n]} :: n in parent' ==> parent'[n] in rank'
  {
    forall n | n in parent' ensures parent'[n] in rank' {
      if n !in added {
        assert parent'[n] == parent[n] && parent[n] in rank;
      }
    }
  }

  lemma FirstExpandParentsPrecede(visited: set<Cell>, parent: map<Cell, Cell>, rank: map<Cell, nat>, current: Cell,
                                  added: set<Cell>, parent': map<Cell, Cell>, rank': map<Cell, nat>)
    requires current !in visited && rank' == rank[current := |visited|]
    requires Ranks(visited, rank)
    requires forall n {:trigger parent[n]} :: n in parent ==> parent[n] in rank
    requires forall n {:trigger rank[parent[n]]} :: n in parent && n in rank ==> rank[parent[n]] < rank[n]
    requires added !! visited + {current}
    requires parent'.Keys == parent.Keys + added
    requires forall n {:trigger parent'[n]} :: n in parent && n !in added ==> parent'[n] == parent[n]
    ensures forall n {:trigger rank'[parent'[n]]} :: n in parent' && n in rank' ==> rank'[parent'[n]] < rank'[n]
  {
    forall n | n in parent' && n in rank'
      ensures rank'[parent'[n]] < rank'[n]
    {
      assert n !in added;
      assert parent'[n] == parent[n] && parent[n] in rank && parent[n] != current;
      if n == current {
        assert rank[parent[n]] < |visited|;
      } else {
        assert rank[parent[n]] < rank[n];
      }
    }
  }

  /** Expanding a polled non-exit cell keeps the invariant. */
  lemma ExpandKeepsInv(m: PlayMap, start: Cell, visited: set<Cell>, queue: seq<Cell>,
                       parent: map<Cell, Cell>, rank: map<Cell, nat>, i: nat,
                       e: (seq<Cell>, map<Cell, Cell>), rank': map<Cell, nat>)
    requires SearchInv(m, start, visited, queue, parent, rank)
    requires i < |queue| && !IsExit(m, queue[i])
    requires e == Enqueue(Neighbors(m, queue[i]), queue[i], visited + {queue[i]}, queue[..i] + queue[i + 1..], parent)
    requires rank' == if queue[i] in visited then rank else rank[queue[i] := |visited|]
    ensures SearchInv(m, start, visited + {queue[i]}, e.0, e.1, rank')
  {
    var current := queue[i];
    var nbrs := Neighbors(m, current);
    var added := set n | n in nbrs && n !in visited + {current};
    assert visited == {} ==> current == start;
    assert current == start || current in parent;
    ExpandKeepsClosure(m, visited, queue, i, e.0);
    ExpandKeepsFrontier(m, start, queue, parent, i, added, e.0, e.1);
    ExpandKeepsParentLinks(m, start, visited, parent, current, added, e.1);
    if current in visited {
      ReexpandKeepsRanks(start, visited, parent, rank, current, added, e.1, rank');
    } else {
      FirstExpandKeepsRanks(start, visited, parent, rank, current, added, e.1, rank');
    }
    assert Started(start, visited + {current}, e.0, e.1);
    assert VisitedOk(m, start, visited + {current});
  }

  /** What the search promises about its result. */
  ghost predicate Answers(m: PlayMap, start: Cell, r: Plan) {
    && (r.NullParent? ==> r.at == start && start != m.exit0)
    && (start == m.exit0 ==> r.Route?)
    && (r.Route? && r.path != [] ==>
          r.path[0] == m.exit0 && IsExit(m, r.path[|r.path| - 1]) && IsWalk(m, r.path))
    && (r.Route? ==> forall k :: 0 <= k < |r.path| - 1 ==> !IsExit(m, r.path[k]))
    && (r == Route([]) ==> !ExitReachable(m, start))
    && (start == m.exit0 ==> (r == Route([]) <==> !ExitReachable(m, start)))
    && (IsExit(m, start) ==> r == (if start == m.exit0 then Route([start]) else NullParent(start)))
  }

  /** When the polled cell is an exit, reconstruction with fuel one more than
      the number of visited cells does not run dry, and what it returns is a
      correct answer. */
  lemma PolledExitAnswers(m: PlayMap, start: Cell, visited: set<Cell>, queue: seq<Cell>,
                          parent: map<Cell, Cell>, rank: map<Cell, nat>, i: nat)
    requires SearchInv(m, start, visited, queue, parent, rank)
    requires i < |queue| && IsExit(m, queue[i])
    ensures var t := Backtrack(queue[i], m.exit0, parent, |visited| + 1);
            && !t.OutOfFuel?
            && (t.Traced? ==> Answers(m, start, Route(t.path)))
            && (t.Broken? ==> Answers(m, start, NullParent(t.at)))
  {
    var current := queue[i];
    var t := Backtrack(current, m.exit0, parent, |visited| + 1);
    if current != m.exit0 && current in parent {
      BacktrackFromVisited(parent, rank, start, m.exit0, parent[current], |visited|);
    } else if current != m.exit0 {
      assert current == start;
    }
    if t.Traced? {
      var p := t.path;
      assert forall k :: 1 <= k < |p| ==> parent[p[k]] == p[k - 1];
      assert IsWalk(m, p);
      forall k | 0 <= k < |p| - 1 ensures !IsExit(m, p[k]) {
        assert parent[p[k + 1]] == p[k];
        assert p[k] in visited;
      }
      if start == m.exit0 {
        assert p[0] == start;
      }
    } else if t.Broken? {
      if t.at != current {
        var n :| n in parent && parent[n] == t.at;
        assert t.at in visited;
      }
    }
  }

  /** When the frontier runs dry, the visited cells are closed under taking
      neighbours and hold no exit, so no exit is reachable. */
  lemma ExhaustedAnswers(m: PlayMap, start: Cell, visited: set<Cell>, parent: map<Cell, Cell>)
    requires VisitedOk(m, start, visited)
    requires Started(start, visited, [], parent)
    requires Closed(m, visited, [])
    ensures Answers(m, start, Route([]))
  {
    assert start in visited;
    assert forall v, n :: v in visited && n in Neighbors(m, v) ==> n in visited;
    NoExitOutsideClosedSet(m, visited, start);
  }

  /** Greedy best-first search from `start`. Each round polls an entry of
      least distance to `exit1`; an exit ends the search with the route
      reconstructed back to `exit0`; otherwise the cell is marked visited and
      its unvisited valid neighbours are queued with it as their parent.
      Popped duplicates are expanded again, as `findPath` does. */
  method FindPath(m: PlayMap, start: Cell) returns (r: Plan)
    ensures r.NullParent? ==> r.at == start && start != m.exit0
    ensures start == m.exit0 ==> r.Route?
    ensures r.Route? && r.path != [] ==>
              && r.path[0] == m.exit0
              && IsExit(m, r.path[|r.path| - 1])
              && IsWalk(m, r.path)
    ensures r.Route? ==> forall k :: 0 <= k < |r.path| - 1 ==> !IsExit(m, r.path[k])
    ensures r == Route([]) ==> !ExitReachable(m, start)
    ensures start == m.exit0 ==> (r == Route([]) <==> !ExitReachable(m, start))
    ensures IsExit(m, start) ==> r == (if start == m.exit0 then Route([start]) else NullParent(start))
  {
    var visited: set<Cell> := {};
    var queue: seq<Cell> := [start];
    var parent: map<Cell, Cell> := map[];
    ghost var rank: map<Cell, nat> := map[];
    ghost var universe := m.valid + {start};

    while queue != []
      invariant SearchInv(m, start, visited, queue, parent, rank)
      decreases |universe - visited|, CountVisited(queue, visited)
    {
      var i := PollIndex(queue, m.exit1);
      var current := queue[i];

      if IsExit(m, current) {
        var trace := Backtrack(current, m.exit0, parent, |visited| + 1);
        PolledExitAnswers(m, start, visited, queue, parent, rank, i);
        if trace.Traced? {
          r := Route(trace.path);
        } else {
          r := NullParent(trace.at);
        }
        return;
      }

      var rest := queue[..i] + queue[i + 1..];
      var visited' := visited + {current};
      ghost var rank' := if current in visited then rank else rank[current := |visited|];
      var nbrs := Neighbors(m, current);
      var e := Enqueue(nbrs, current, visited', rest, parent);
      ExpandKeepsInv(m, start, visited, queue, parent, rank, i, e, rank');

      if current !in visited {
        VisitShrinksUnvisited(universe, visited, current);
      } else {
        CountDropsOnRevisit(queue, i, visited, rest, e.0);
      }
      visited, queue, parent, rank := visited', e.0, e.1, rank';
    }

    ExhaustedAnswers(m, start, visited, parent);
    r := Route([]);
  }

  // ---------------------------------------------------------------------
  // Replaying the route

  /** One tick's decision and what is left of the route afterwards. */
  datatype Tick = Tick(action: int, rest: seq<Cell>)

  /** The planner's per-tick query: pop the head waypoint, and emit the
      direction whose single-coordinate test it passes first (left, right,
      up, down) provided the map currently allows moving onto it; IDLE
      otherwise, the waypoint being consumed anyway. */
  function NextAction(m: PlayMap, hero: Cell, path: seq<Cell>): (t: Tick)
    ensures path == [] ==> t == Tick(IDLE, [])
    ensures path != [] ==> t.rest == path[1..]
    ensures t.action == IDLE || IsDirection(t.action)
    ensures IsDirection(t.action) ==> path != [] && IsValidMove(m, path[0])
    ensures path != [] && !IsValidMove(m, path[0]) ==> t.action == IDLE
    ensures path != [] && IsValidMove(m, path[0]) && path[0].x == hero.x - 1 ==> t.action == LEFT
    ensures (path != [] && IsValidMove(m, path[0]) && path[0].x != hero.x - 1 &&
             path[0].x == hero.x + 1) ==> t.action == RIGHT
    ensures (path != [] && IsValidMove(m, path[0]) && path[0].x != hero.x - 1 &&
             path[0].x != hero.x + 1 && path[0].y == hero.y - 1) ==> t.action == UP
    ensures (path != [] && IsValidMove(m, path[0]) && path[0].x != hero.x - 1 &&
             path[0].x != hero.x + 1 && path[0].y != hero.y - 1 && path[0].y == hero.y + 1) ==> t.action == DOWN
    ensures (path != [] && path[0].x != hero.x - 1 && path[0].x != hero.x + 1 &&
             path[0].y != hero.y - 1 && path[0].y != hero.y + 1) ==> t.action == IDLE
  {
    if path == [] then Tick(IDLE, [])
    else
      var w := path[0];
      var rest := path[1..];
      if w.x == hero.x - 1 && IsValidMove(m, w) then Tick(LEFT, rest)
      else if w.x == hero.x + 1 && IsValidMove(m, w) then Tick(RIGHT, rest)
      else if w.y == hero.y - 1 && IsValidMove(m, w) then Tick(UP, rest)
      else if w.y == hero.y + 1 && IsValidMove(m, w) then Tick(DOWN, rest)
      else Tick(IDLE, rest)
  }

  /** A valid waypoint next to the hero yields exactly the move onto it. */
  lemma ActionReachesWaypoint(m: PlayMap, hero: Cell, path: seq<Cell>)
    requires path != [] && Adjacent(hero, path[0]) && IsValidMove(m, path[0])
    ensures IsDirection(NextAction(m, hero, path).action)
    ensures Displace(hero, NextAction(m, hero, path).action) == path[0]
  {
    AdjacentIsAround(hero, path[0]);
  }

  /** A waypoint on the hero's own cell is consumed without moving. */
  lemma WaypointOnHeroIsIdle(m: PlayMap, hero: Cell, path: seq<Cell>)
    requires path != [] && path[0] == hero
    ensures NextAction(m, hero, path) == Tick(IDLE, path[1..])
  {
  }

  /** Each test compares a single coordinate: a valid waypoint one column to
      the left but in another row still gives LEFT, and that move does not
      land on the waypoint, so the hero leaves the route. */
  lemma LeftIgnoresRow(m: PlayMap, hero: Cell, path: seq<Cell>)
    requires path != [] && IsValidMove(m, path[0])
    requires path[0].x == hero.x - 1 && path[0].y != hero.y
    ensures NextAction(m, hero, path).action == LEFT
    ensures Displace(hero, LEFT) != path[0]
    ensures !Adjacent(hero, path[0])
  {
  }

  /** The actions of successive ticks, with the hero's cell and the map at
      each tick given, and the route left over. */
  function Replay(maps: seq<PlayMap>, heroes: seq<Cell>, path: seq<Cell>): (r: (seq<int>, seq<Cell>))
    requires |maps| == |heroes|
    ensures |r.0| == |heroes|
    ensures |heroes| <= |path| ==> r.1 == path[|heroes|..]
    ensures |heroes| > |path| ==> r.1 == []
    ensures forall k :: |path| <= k < |heroes| ==> r.0[k] == IDLE
    ensures forall k :: 0 <= k < |heroes| && k < |path| && !IsValidMove(maps[k], path[k]) ==> r.0[k] == IDLE
    decreases |heroes|
  {
    if heroes == [] then ([], path)
    else
      var t := NextAction(maps[0], heroes[0], path);
      var r := Replay(maps[1..], heroes[1..], t.rest);
      assert 1 <= |heroes| <= |path| ==> path[1..][|heroes| - 1..] == path[|heroes|..];
      ([t.action] + r.0, r.1)
  }

  /** The hero's cell after replaying the rest of the route on an unchanged
      map, each directional action moving the hero one cell. */
  function Simulate(m: PlayMap, hero: Cell, path: seq<Cell>): Cell
    decreases |path|
  {
    if path == [] then hero
    else
      var t := NextAction(m, hero, path);
      Simulate(m, Displace(hero, t.action), t.rest)
  }

  /** Replaying a walk that starts on the hero's cell ends on its last cell. */
  lemma {:induction false} FollowWalk(m: PlayMap, hero: Cell, path: seq<Cell>)
    requires IsWalk(m, [hero] + path)
    ensures Simulate(m, hero, path) == ([hero] + path)[|path|]
    decreases |path|
  {
    if path != [] {
      var w := [hero] + path;
      assert Adjacent(w[0], w[1]) && IsValidMove(m, w[1]);
      ActionReachesWaypoint(m, hero, path);
      assert [path[0]] + path[1..] == w[1..];
      FollowWalk(m, path[0], path[1..]);
    }
  }

  /** Replaying a route found from the hero's cell on the same map leaves the
      hero on an exit: the first waypoint is the hero's own cell and each
      later one is a valid neighbour of the previous. */
  lemma RouteLeadsToExit(m: PlayMap, route: seq<Cell>)
    requires route != [] && IsWalk(m, route) && IsExit(m, route[|route| - 1])
    ensures IsExit(m, Simulate(m, route[0], route))
  {
    WaypointOnHeroIsIdle(m, route[0], route);
    assert Displace(route[0], IDLE) == route[0];
    assert [route[0]] + route[1..] == route;
    FollowWalk(m, route[0], route[1..]);
  }

  /** The planner as constructed: the search starts from the map's first
      exit, so reconstruction always succeeds. */
  method PlanRoute(m: PlayMap) returns (path: seq<Cell>)
    ensures path == [] <==> !ExitReachable(m, m.exit0)
    ensures path != [] ==> path[0] == m.exit0 && IsExit(m, path[|path| - 1]) && IsWalk(m, path)
    ensures forall k :: 0 <= k < |path| - 1 ==> !IsExit(m, path[k])
    ensures IsExit(m, m.exit0) ==> path == [m.exit0]
  {
    var r := FindPath(m, m.exit0);
    path := r.path;
  }
}

=== FILE: grid.dfy ===
/** Cells of the dungeon grid, the Manhattan metric and the integer action
    encoding shared by both navigation controllers. */
module Grid {

  /** A grid cell. Equality is structural; the planner's visited set and
      parent map are assumed to compare points by coordinates. */
  datatype Cell = Cell(x: int, y: int)

  // The action encoding the game loop dispatches on.
  const UP: int := 0
  const RIGHT: int := 1
  const DOWN: int := 2
  const LEFT: int := 3
  const IDLE: int := -1

  /** True of the four directional actions. */
  predicate IsDirection(a: int) {
    UP <= a <= LEFT
  }

  function Abs(n: int): (r: nat)
    ensures r == n || r == -n
  {
    if n < 0 then -n else n
  }

  /** Manhattan distance between two cells. */
  function Manhattan(a: Cell, b: Cell): (d: nat)
    ensures d == 0 <==> a == b
    ensures d >= Abs(a.x - b.x) && d >= Abs(a.y - b.y)
  {
    Abs(a.x - b.x) + Abs(a.y - b.y)
  }

  lemma ManhattanSymmetric(a: Cell, b: Cell)
    ensures Manhattan(a, b) == Manhattan(b, a)
  {
    assert Abs(a.x - b.x) == Abs(b.x - a.x);
    assert Abs(a.y - b.y) == Abs(b.y - a.y);
  }

  /** Two cells are 4-adjacent: one step apart along exactly one axis. */
  predicate Adjacent(a: Cell, b: Cell) {
    Manhattan(a, b) == 1
  }

  /** The four cells adjacent to `c`, in the order the planner probes them:
      +x, -x, +y, -y. */
  function Around(c: Cell): seq<Cell> {
    [Cell(c.x + 1, c.y), Cell(c.x - 1, c.y), Cell(c.x, c.y + 1), Cell(c.x, c.y - 1)]
  }

  lemma AdjacentIsAround(a: Cell, b: Cell)
    ensures Adjacent(a, b) <==> b in Around(a)
  {
    if Adjacent(a, b) {
      if a.x == b.x {
        assert b == Cell(a.x, a.y + 1) || b == Cell(a.x, a.y - 1);
      } else {
        assert b == Cell(a.x + 1, a.y) || b == Cell(a.x - 1, a.y);
      }
    }
  }

  /** Where a character standing on `c` ends up after action `a`: up and
      left decrease y and x, down and right increase them, anything else
      (IDLE, or an index outside the four directions) stays put. */
  function Displace(c: Cell, a: int): (r: Cell)
    ensures IsDirection(a) ==> Adjacent(c, r)
    ensures a == UP ==> r == Cell(c.x, c.y - 1)
    ensures a == RIGHT ==> r == Cell(c.x + 1, c.y)
    ensures a == DOWN ==> r == Cell(c.x, c.y + 1)
    ensures a == LEFT ==> r == Cell(c.x - 1, c.y)
    ensures !IsDirection(a) ==> r == c
  {
    if a == UP then Cell(c.x, c.y - 1)
    else if a == RIGHT then Cell(c.x + 1, c.y)
    else if a == DOWN then Cell(c.x, c.y + 1)
    else if a == LEFT then Cell(c.x - 1, c.y)
    else c
  }
}

=== FILE: q_learning.dfy ===
/** The tabular Q-learning controller: a dense table of action values per
    grid cell, the greedy choice read from it, the reward shaping and one
    step of the one-step Bellman update used in training. */
module QLearning {
  import opened Grid

  // Tunables, fixed for the whole run.
  const ActionRange: nat := 5
  const ExplorationChance: real := 0.9
  const Gamma: real := 0.9
  const LearningRate: real := 0.1
  const MaxStepsPerEpisode: nat := 300

  /** Action values indexed `[x][y][action]`. */
  type Table = seq<seq<seq<real>>>

  /** The table has `width` columns of `height` rows of `ActionRange` values. */
  predicate Shaped(t: Table, width: nat, height: nat) {
    && |t| == width
    && (forall x :: 0 <= x < width ==> |t[x]| == height)
    && (forall x, y :: 0 <= x < width && 0 <= y < height ==> |t[x][y]| == ActionRange)
  }

  predicate InGrid(c: Cell, width: nat, height: nat) {
    0 <= c.x < width && 0 <= c.y < height
  }

  /** A row of `ActionRange` zeros. */
  predicate ZeroRow(row: seq<real>) {
    |row| == ActionRange && forall a :: 0 <= a < |row| ==> row[a] == 0.0
  }

  /** A column of `height` zero rows. */
  predicate ZeroColumn(column: seq<seq<real>>, height: nat) {
    |column| == height && forall y :: 0 <= y < |column| ==> ZeroRow(column[y])
  }

  /** Allocates the table for a `width` by `height` map with every value 0. */
  method InitializeQTable(width: nat, height: nat) returns (t: Table)
    ensures Shaped(t, width, height)
    ensures forall x, y, a :: 0 <= x < width && 0 <= y < height && 0 <= a < ActionRange ==> t[x][y][a] == 0.0
  {
    t := [];
    var x := 0;
    while x < width
      invariant x <= width
      invariant |t| == x
      invariant forall i :: 0 <= i < x ==> ZeroColumn(t[i], height)
    {
      var column := [];
      var y := 0;
      while y < height
        invariant y <= height
        invariant |column| == y
        invariant forall j :: 0 <= j < y ==> ZeroRow(column[j])
      {
        var row := [];
        var a := 0;
        while a < ActionRange
          invariant a <= ActionRange
          invariant |row| == a
          invariant forall k :: 0 <= k < a ==> row[k] == 0.0
        {
          row := row + [0.0];
          a := a + 1;
        }
        column := column + [row];
        y := y + 1;
      }
      t := t + [column];
      x := x + 1;
    }
    forall x, y, a | 0 <= x < width && 0 <= y < height && 0 <= a < ActionRange
      ensures t[x][y][a] == 0.0
    {
      assert ZeroColumn(t[x], height);
      assert ZeroRow(t[x][y]);
    }
  }

  // ---------------------------------------------------------------------
  // Greedy choice

  /** `a` is the greedy action of `row`: its value is a maximum, and every
      lower index holds a strictly smaller value (ties go to the lowest). */
  predicate IsGreedy(row: seq<real>, a: nat) {
    && a < |row|
    && (forall j :: 0 <= j < |row| ==> row[j] <= row[a])
    && (forall j :: 0 <= j < a ==> row[j] < row[a])
  }

  /** The scan from index `i` on, with `best` the greedy index of the prefix
      before `i`; a later value replaces it only when strictly greater. */
  function ScanBest(row: seq<real>, i: nat, best: nat): (a: nat)
    requires best < i <= |row|
    requires forall j :: 0 <= j < i ==> row[j] <= row[best]
    requires forall j :: 0 <= j < best ==> row[j] < row[best]
    ensures IsGreedy(row, a)
    decreases |row| - i
  {
    if i == |row| then best
    else if row[i] > row[best] then ScanBest(row, i + 1, i)
    else ScanBest(row, i + 1, best)
  }

  /** Index of the first maximal value of a non-empty row. */
  function BestIndex(row: seq<real>): (a: nat)
    requires |row| > 0
    ensures IsGreedy(row, a)
  {
    ScanBest(row, 1, 0)
  }

  /** There is exactly one greedy action: the scan finds it. */
  lemma GreedyIsUnique(row: seq<real>, a: nat)
    requires |row| > 0
    ensures IsGreedy(row, a) <==> a == BestIndex(row)
  {
  }

  /** The scan for the largest value from index `i` on, `m` being the largest
      value of the prefix before `i`. */
  function ScanMax(row: seq<real>, i: nat, m: real): (v: real)
    requires 1 <= i <= |row|
    requires m in row[..i]
    requires forall j :: 0 <= j < i ==> row[j] <= m
    ensures v in row
    ensures forall j :: 0 <= j < |row| ==> row[j] <= v
    decreases |row| - i
  {
    if i == |row| then
      assert row[..i] == row;
      m
    else
      assert row[..i + 1] == row[..i] + [row[i]];
      if row[i] > m then ScanMax(row, i + 1, row[i])
      else ScanMax(row, i + 1, m)
  }

  /** The largest value of a non-empty row. */
  function MaxValue(row: seq<real>): (v: real)
    requires |row| > 0
    ensures v in row
    ensures forall j :: 0 <= j < |row| ==> row[j] <= v
  {
    assert row[..1] == [row[0]];
    ScanMax(row, 1, row[0])
  }

  /** The row maximum is the value of the greedy action. */
  lemma MaxIsGreedyValue(row: seq<real>)
    requires |row| > 0
    ensures MaxValue(row) == row[BestIndex(row)]
  {
    var v := MaxValue(row);
    var i :| 0 <= i < |row| && row[i] == v;
    assert row[i] <= row[BestIndex(row)];
  }

  /** The greedy action recorded for cell `c`. */
  function GetBestAction(t: Table, width: nat, height: nat, c: Cell): (a: nat)
    requires Shaped(t, width, height) && InGrid(c, width, height)
    ensures a < ActionRange
    ensures IsGreedy(t[c.x][c.y], a)
  {
    BestIndex(t[c.x][c.y])
  }

  /** The largest value recorded for cell `c`. */
  function GetMaxQValue(t: Table, width: nat, height: nat, c: Cell): (v: real)
    requires Shaped(t, width, height) && InGrid(c, width, height)
    ensures forall a :: 0 <= a < ActionRange ==> t[c.x][c.y][a] <= v
    ensures v == t[c.x][c.y][GetBestAction(t, width, height, c)]
  {
    MaxIsGreedyValue(t[c.x][c.y]);
    MaxValue(t[c.x][c.y])
  }

  /** Epsilon-greedy choice during training: `roll` is the uniform draw in
      [0, 1) deciding whether to explore, `draw` the uniform action index
      used when exploring. */
  function SelectActionWithExploration(t: Table, width: nat, height: nat, c: Cell,
                                       roll: real, draw: nat): (a: nat)
    requires Shaped(t, width, height) && InGrid(c, width, height)
    requires 0.0 <= roll < 1.0 && draw < ActionRange
    ensures a < ActionRange
    ensures roll < ExplorationChance ==> a == draw
    ensures roll >= ExplorationChance ==> IsGreedy(t[c.x][c.y], a)
  {
    if roll < ExplorationChance then draw else GetBestAction(t, width, height, c)
  }

  /** The controller's per-tick query after training: never explores. */
  function NextAction(t: Table, width: nat, height: nat, hero: Cell): (a: int)
    requires Shaped(t, width, height) && InGrid(hero, width, height)
    ensures 0 <= a < ActionRange
    ensures IsGreedy(t[hero.x][hero.y], a)
    ensures forall draw :: 0 <= draw < ActionRange ==>
              a == SelectActionWithExploration(t, width, height, hero, ExplorationChance, draw)
  {
    GetBestAction(t, width, height, hero)
  }

  /** The runtime query can answer 4, which is neither a direction nor IDLE
      in the action encoding the game loop dispatches on: it does so whenever
      the hero's row is largest at its last entry. */
  lemma NextActionCanBeFour(t: Table, width: nat, height: nat, hero: Cell)
    requires Shaped(t, width, height) && InGrid(hero, width, height)
    requires forall a :: 0 <= a < 4 ==> t[hero.x][hero.y][a] < t[hero.x][hero.y][4]
    ensures NextAction(t, width, height, hero) == 4
    ensures !IsDirection(NextAction(t, width, height, hero))
    ensures NextAction(t, width, height, hero) != IDLE
  {
    GreedyIsUnique(t[hero.x][hero.y], 4);
  }

  // ---------------------------------------------------------------------
  // Training

  /** What one training iteration sees of the map: where moves are legal,
      which cells are exits, and which are still unexplored. This is not the
      planner's `PlayMap`: training never reads the two designated exits,
      and it needs the unexplored cells, which change as the hero moves
      while the valid and exit cells are read afresh each iteration. */
  datatype World = World(valid: set<Cell>, exits: set<Cell>, unexplored: set<Cell>)

  /** Shaped reward for arriving on `next`. */
  function CalculateReward(w: World, next: Cell): (r: real)
    ensures r == 100.0 <==> next in w.exits
    ensures r == 10.0 <==> next !in w.exits && next in w.unexplored
    ensures r == -1.0 <==> next !in w.exits && next !in w.unexplored
    ensures r > 0.0 <==> next in w.exits || next in w.unexplored
  {
    if next in w.exits then 100.0
    else if next in w.unexplored then 10.0
    else -1.0
  }

  /** The trainer's local state within an episode. */
  datatype Learner = Learner(table: Table, pos: Cell, steps: nat)

  /** One iteration of the episode loop, after the action has been chosen
      and its destination looked up: an invalid destination changes nothing;
      otherwise the entry for (position, action) moves toward the reward plus
      the discounted best value of the destination, the learner moves there,
      and the step counter advances. */
  function TrainStep(width: nat, height: nat, s: Learner, w: World, action: nat, next: Cell): (s': Learner)
    requires Shaped(s.table, width, height) && InGrid(s.pos, width, height)
    requires action < ActionRange
    requires next in w.valid ==> InGrid(next, width, height)
    ensures Shaped(s'.table, width, height) && InGrid(s'.pos, width, height)
    ensures next !in w.valid ==> s' == s
    ensures next in w.valid ==> s'.pos == next && s'.steps == s.steps + 1
    ensures forall x, y, a ::
              (0 <= x < width && 0 <= y < height && 0 <= a < ActionRange &&
               (x != s.pos.x || y != s.pos.y || a != action)) ==> s'.table[x][y][a] == s.table[x][y][a]
    ensures next in w.valid ==>
              var prior := s.table[s.pos.x][s.pos.y][action];
              var target := CalculateReward(w, next) + Gamma * GetMaxQValue(s.table, width, height, next);
              var updated := s'.table[s.pos.x][s.pos.y][action];
              && (prior <= target ==> prior <= updated <= target)
              && (target <= prior ==> target <= updated <= prior)
              && (updated == prior <==> prior == target)
  {
    if next !in w.valid then s
    else
      var t := s.table;
      var x := s.pos.x;
      var y := s.pos.y;
      var prior := t[x][y][action];
      var target := CalculateReward(w, next) + Gamma * GetMaxQValue(t, width, height, next);
      var updated := prior + LearningRate * (target - prior);
      Learner(t[x := t[x][y := t[x][y][action := updated]]], next, s.steps + 1)
  }

  /** The loop condition of an episode. */
  predicate Running(w: World, s: Learner) {
    s.pos !in w.exits && s.steps < MaxStepsPerEpisode
  }

  /** One attempt of the episode loop: the map at that moment, the chosen
      action, and the cell the hero would reach with it. */
  datatype Attempt = Attempt(world: World, action: nat, next: Cell)

  predicate AttemptFits(at: Attempt, width: nat, height: nat) {
    at.action < ActionRange && (at.next in at.world.valid ==> InGrid(at.next, width, height))
  }

  /** The episode loop driven by a finite sequence of attempts; it stops at
      an exit or once the step cap is reached. */
  function Episode(width: nat, height: nat, s: Learner, attempts: seq<Attempt>): (r: Learner)
    requires Shaped(s.table, width, height) && InGrid(s.pos, width, height)
    requires forall k :: 0 <= k < |attempts| ==> AttemptFits(attempts[k], width, height)
    ensures Shaped(r.table, width, height) && InGrid(r.pos, width, height)
    ensures s.steps <= r.steps <= s.steps + |attempts|
    ensures s.steps <= MaxStepsPerEpisode ==> r.steps <= MaxStepsPerEpisode
    decreases |attempts|
  {
    if attempts == [] then s
    else
      var at := attempts[0];
      assert AttemptFits(at, width, height);
      if !Running(at.world, s) then s
      else Episode(width, height, TrainStep(width, height, s, at.world, at.action, at.next), attempts[1..])
  }

  /** When no attempted move is ever valid, an episode leaves the table, the
      position and the step counter as they were. */
  lemma {:induction false} StalledEpisode(width: nat, height: nat, s: Learner, attempts: seq<Attempt>)
    requires Shaped(s.table, width, height) && InGrid(s.pos, width, height)
    requires forall k :: 0 <= k < |attempts| ==> AttemptFits(attempts[k], width, height)
    requires forall k :: 0 <= k < |attempts| ==> attempts[k].next !in attempts[k].world.valid
    ensures Episode(width, height, s, attempts) == s
    decreases |attempts|
  {
    if attempts != [] {
      StalledEpisode(width, height, s, attempts[1..]);
    }
  }
}
